=== FILE: README.md ===
# Dynamic-security access control for the IoT application registry

A Dafny model of the layer that keeps a publish/subscribe broker's
dynamic-security plugin in step with the application and device registry:

- **Command construction** (`dynsec/apps_dynsec.py`): registering an
  application, deleting its client, granting and revoking a device's event and
  command topics to an application's role. Each operation yields its command
  batches in publish order; every batch goes to the control topic
  `$CONTROL/dynamic-security/v1`. Commands are a closed variant (`CreateRole`,
  `CreateClient`, `DeleteClient`, `AddRoleACL`, `RemoveRoleACL`) carrying
  exactly their fields; JSON text is not modelled.
- **Security-document queries** (`environments/dynsec_db.py`): first-match
  lookups over the broker's persisted document of clients and roles, passed in
  as an immutable value. Keys the code indexes directly (`['roles']`,
  `['clients']`, `['rolename']`, `['username']`) turn into
  `Failure(KeyError(..))` when missing; keys read with a default behave as
  empty or absent.
- **Registry routes** (`routes/apps_router.py`): `add_app`, `get_appId`,
  `del_appId` and `addMember` as guarded transitions over (application store,
  device store, publish trace). A rejected request (422 reserved id, 409 id
  taken by an application or a device, 404 unknown application) returns the
  state unchanged; an accepted one appends its publishes to the trace and
  updates the application store.

Modules: `Wrappers` (Option/Result), `Naming` (role and topic names, reserved
ids), `Commands` (the command variant and messages), `AppsDynsec` (command
construction), `DynsecDb` (document queries), `Trace` (publish trace and which
clients and roles it leaves in existence), `AppsRouter` (route transitions and
their invariants).

The central invariant, `AppsRouter.Valid`, says that the trace agrees with the
store: exactly the stored applications have a live client, exactly the
restricted ones have a live exclusive role `$apps_{appId}`, and every client
was bound only to the shared role `$apps` or to a role created by an earlier,
separate publish. The shared role is exempt because nothing here creates it
(registration only carries a reminder to ensure it exists): it is assumed to
exist broker-side already. Every route preserves the invariant, and registering then deleting an
application returns store and broker-side names to where they were.

Two collaborators are not part of this model and are treated as opaque:
`ACLBase(rolename).get_id()` (from `dynsec/topicBase`) is assumed to return
the role name itself (`Naming.AclId`), and `delete_dynsec_role` (from
`dynsec/roles_dynsec`) is recorded as the trace event `RoleDeleted(name)`,
assumed to remove exactly that role.

Behaviour of the code that a reader might not expect, modelled as written:

- `get_client_roleId` returns an empty `rolename` as it is (`Some("")`); only
  its callers treat it as absent, through Python truthiness (`DynsecDb.Truthy`).
- `dynsec_role_exists` and `get_dynsec_admin` raise on a missing collection or
  a record lacking an indexed key; they do not return false or None.
- There is no single device/application classifier: `get_device` and
  `get_appId` are independent, and both succeed exactly when an id's first role
  is the id itself and starts with `$apps` (`DynsecDb.DeviceAndAppOverlap`).
- A membership grant always targets `$apps_{appId}`, also for an unrestricted
  application whose client is bound to `$apps` and whose exclusive role was
  never created (`AppsDynsec.UnrestrictedGrantTargetsUncreatedRole`).
- `addMember` does not check that the device exists.

## Model

| member | source | states |
|---|---|---|
| Naming.ExclusiveRole | dynsec/apps_dynsec.py:16 | the exclusive role is `$apps_` followed by the application id, recoverable from the name |
| Naming.RoleForApp | dynsec/apps_dynsec.py:14-16 | `$apps` when unrestricted; when restricted, `$apps_` followed by exactly the application id |
| Naming.EventTopic | dynsec/apps_dynsec.py:67 | the event pattern is `iot3/` + device id + `/evt/#`, device id recoverable |
| Naming.CommandTopic | dynsec/apps_dynsec.py:75 | the command pattern is `iot3/` + device id + `/cmd/#`, device id recoverable |
| Naming.ExclusiveRoleInjective | dynsec/apps_dynsec.py:16 | two applications share an exclusive role iff they have the same id |
| Naming.ExclusiveRoleIsNotShared | dynsec/apps_dynsec.py:14-16 | an exclusive role is never `$apps` but starts with it |
| Naming.TopicsDistinct | dynsec/apps_dynsec.py:60-101 | patterns are injective in the device id and an event pattern never equals a command pattern |
| Naming.AclId | dynsec/apps_dynsec.py:17-22 | assumption about the unseen ACL helper: the identifier it reports for a role is the role name itself |
| Naming.IsReservedAppId | routes/apps_router.py:22 | an id is reserved iff its first character is `$` or it is exactly `admin` |
| Naming.RoleNamesAreReserved | routes/apps_router.py:22-26 | every application role name is itself a reserved id, so no accepted id is a role name |
| AppsDynsec.AddDynsecApp | dynsec/apps_dynsec.py:12-45 | one publish for an unrestricted app, two for a restricted one; all to the control topic, one command each; the restricted one first creates `$apps_{appId}` with no ACLs; the last creates the client with the app's id and password bound to its role at priority -1 |
| AppsDynsec.DeleteDynsecApp | dynsec/apps_dynsec.py:48-57 | one publish to the control topic holding only `deleteClient` for the id |
| AppsDynsec.AddMember | dynsec/apps_dynsec.py:60-81 | one publish of two `addRoleACL` on `$apps_{appId}` at priority -1: subscribe on the event pattern with allow = evt, then publish-send on the command pattern with allow = cmd |
| AppsDynsec.RemoveMember | dynsec/apps_dynsec.py:84-101 | one publish of two `removeRoleACL`, addressing the event then the command pattern on `$apps_{appId}` |
| AppsDynsec.RemoveMemberUndoesAddMember | dynsec/apps_dynsec.py:60-101 | revoking addresses exactly the (role, kind, topic) triples granting created, in the same order, whatever the flags |
| AppsDynsec.GrantFlagsIndependent | dynsec/apps_dynsec.py:60-81 | changing the event flag changes only the event entry; a false flag is still sent as an explicit entry |
| AppsDynsec.RestrictedRoleCreatedBeforeClient | dynsec/apps_dynsec.py:15-45 | the restricted app's role is created by a separate, earlier publish than the client bound to it |
| AppsDynsec.UnrestrictedGrantTargetsUncreatedRole | dynsec/apps_dynsec.py:14-81 | for an unrestricted app no registration command creates the role a grant targets |
| DynsecDb.FindFirst | environments/dynsec_db.py:33-39 | first-match search: None iff no element matches, otherwise an element that matches with no earlier match |
| DynsecDb.ScanRolenames | environments/dynsec_db.py:12-17 | true iff a match comes before any record lacking `rolename`; false only after a complete scan; a key error at the first unnamed record before a match |
| DynsecDb.DynsecRoleExists | environments/dynsec_db.py:12-17 | missing `roles` is a key error; true only with a match before any unnamed role; false only when every role is named and none matches; otherwise a missing-`rolename` error at an unnamed role with no earlier match |
| DynsecDb.ClientScan | environments/dynsec_db.py:22-24 | one client's inner loop: a `roles` key error iff `roles` is missing; otherwise true only with an `admin` binding before any binding lacking `rolename`, false only when every binding is named and none is `admin`, and a `rolename` key error at an unnamed binding with no earlier `admin` |
| DynsecDb.AdminScan | environments/dynsec_db.py:19-25 | every client before the result scans cleanly without `admin`; the result is the username of the first client whose scan finds `admin`, None iff every scan is clean without it, or the error of the first failing scan (or a missing `username` on the admin holder); never an error on well-formed clients |
| DynsecDb.GetDynsecAdmin | environments/dynsec_db.py:19-25 | missing `clients` is a key error; otherwise the same first-stop description over the document's clients |
| DynsecDb.GetClient | environments/dynsec_db.py:33-35 | the first client of the document, in order, with that username; None iff there is none; missing `clients` is empty |
| DynsecDb.GetRole | environments/dynsec_db.py:37-39 | the first role of the document, in order, with that name; None iff there is none; missing `roles` is empty |
| DynsecDb.GetClientRoleId | environments/dynsec_db.py:41-45 | the first binding's `rolename` of the first client with that id; None when the client is absent, or has no bindings, or the first lacks `rolename` |
| DynsecDb.GetClientRole | environments/dynsec_db.py:47-50 | a returned role carries the client's first role id, which is non-empty, and is the first role in document order with that name; None iff that id is empty or absent or no role bears it |
| DynsecDb.GetDevice | environments/dynsec_db.py:52-56 | non-None iff the id is non-empty and the client's first role is the id itself, and then it is that client |
| DynsecDb.GetAppId | environments/dynsec_db.py:58-62 | non-None iff the client's first role starts with `$apps`, and then it is that client |
| DynsecDb.DeviceAndAppOverlap | environments/dynsec_db.py:52-62 | an id is both a device and an application iff its first role is itself and starts with `$apps` |
| DynsecDb.DeviceAndAppExclusive | environments/dynsec_db.py:52-62 | an id not starting with `$apps` is never both a device and an application |
| DynsecDb.RegisteredAppClassifiesAsApp | environments/dynsec_db.py:52-62 | a client bound first to the role registration gives an accepted id is an application and not a device |
| Trace.Publish | dynsec/apps_dynsec.py:45 | each publish appends one event carrying its message, after and without changing the earlier trace |
| AppsRouter.AddApp | routes/apps_router.py:20-42 | 422 iff the id starts with `$` or is `admin`; 409 (application) iff otherwise already stored; 409 (device) iff otherwise a device id; success iff none of these; on error nothing changes; on success the registration publishes are appended, the app is stored under its id and nothing else changes |
| AppsRouter.GetAppId | routes/apps_router.py:44-52 | the stored record iff the id is stored, otherwise 404 |
| AppsRouter.LookupAfterAddAndDelete | routes/apps_router.py:20-67 | a registered app is found by the lookup, and after its deletion the lookup answers 404 |
| AppsRouter.DeleteEvents | routes/apps_router.py:63-65 | a restricted app's role deletion strictly precedes its client deletion; an unrestricted app only has its client deleted |
| AppsRouter.DelAppId | routes/apps_router.py:54-67 | 404 with no change iff the id is not stored; otherwise the deletion events are appended, the id leaves the store and all other apps and the devices are unchanged |
| AppsRouter.AddMember | routes/apps_router.py:69-80 | 404 with no change iff the app is not stored; otherwise it answers with the app id, exactly the grant publish is appended and the stores are unchanged |
| AppsRouter.AddAppClients | routes/apps_router.py:40-41 | after registration exactly the stored apps have a live client |
| AppsRouter.AddAppRoles | routes/apps_router.py:40-41 | after registration exactly the restricted stored apps have a live exclusive role |
| AppsRouter.AddAppBoundRoles | routes/apps_router.py:40-41 | the new client is bound to `$apps` or to a role already live when it is created |
| AppsRouter.AddAppPreservesValid | routes/apps_router.py:20-42 | registration preserves store and trace consistency |
| AppsRouter.DelAppIdClients | routes/apps_router.py:65-66 | after deletion exactly the remaining stored apps have a live client: the deleted app's client is gone, no other is touched |
| AppsRouter.DelAppIdRoles | routes/apps_router.py:63-66 | after deletion exactly the remaining restricted apps have a live exclusive role: a restricted app's role is gone, no other app's role is touched |
| AppsRouter.DelAppIdPreservesValid | routes/apps_router.py:54-67 | deletion preserves store and trace consistency |
| AppsRouter.AddMemberPreservesValid | routes/apps_router.py:69-80 | a grant creates and deletes no client or role and preserves consistency |
| AppsRouter.AddThenDeleteRestores | routes/apps_router.py:20-67 | registering then deleting an app succeeds and restores the store and every app client and exclusive role broker-side |

## Left out

- JSON serialisation of commands, the MQTT publish call and logging: a publish is an append to the trace.
- Reading and parsing the security document (`load_dynsec`): the document is a parameter, so file and parse failures are not modelled.
- Values of the wrong JSON type in the document (a non-string `rolename`, a `null` collection): fields are either present with the expected type or missing.
- The creation-date conversion in `add_app` (time-zone shift and formatting): date and time library behaviour with no invariant.
- Response bodies beyond the outcome: `add_app` returns the record, `del_appId` and `addMember` return the id.
- The list-all route `get_apps`: it returns the store unchanged.
- `print(appId)` in `addMember`: console output.
- JWT authentication, the TinyDB wrapper (the stores are a map keyed by application id and a set of device ids) and the pydantic models.
- `remove_member` is not called by any route shown, so no route transition uses it.
- The internals of `ACLBase.get_id()` and `delete_dynsec_role`: assumed to return the role name and to delete exactly that role.
- Broker-side behaviour: ACL matching, wildcard evaluation, rejection of duplicate names or ACLs, and what an ACL on a missing role does. `Trace.Live` only tracks which names were created and deleted.
- The web server, websocket relay and MQTT callbacks: I/O and concurrency plumbing.

=== FILE: apps_dynsec.dfy ===
/** Construction of the command batches that register and remove an
    application and grant or revoke a device's topics to an application's
    role. Each function returns the messages in publish order; publishing
    itself is the caller's concern. */
module AppsDynsec {
  import opened Naming
  import opened Commands

  /** An application record as the registry holds it (its creation date is
      not modelled). */
  datatype App = App(appId: string, password: string, restricted: bool)

  /** Priority given to every role binding and ACL this layer creates. */
  const Priority: int := -1

  /** Publishes that register `app` with the broker. */
  function AddDynsecApp(app: App): (r: seq<Message>)
    ensures |r| == if app.restricted then 2 else 1
    ensures forall i | 0 <= i < |r| :: r[i].topic == ControlTopic && |r[i].commands| == 1
    ensures app.restricted ==> r[0].commands[0] == CreateRole(ExclusiveRole(app.appId), [])
    ensures r[|r| - 1].commands[0]
            == CreateClient(app.appId, app.password, [RoleBinding(RoleForApp(app.appId, app.restricted), Priority)])
  {
    var client := Message(ControlTopic, [CreateClient(app.appId, app.password,
                                                      [RoleBinding(RoleForApp(app.appId, app.restricted), Priority)])]);
    if app.restricted then
      [Message(ControlTopic, [CreateRole(AclId(ExclusiveRole(app.appId)), [])]), client]
    else
      [client]
  }

  /** Publishes that remove application `appId`'s client. The exclusive role,
      if any, is removed separately. */
  function DeleteDynsecApp(appId: string): (r: seq<Message>)
    ensures |r| == 1 && r[0].topic == ControlTopic
    ensures r[0].commands == [DeleteClient(appId)]
  {
    [Message(ControlTopic, [DeleteClient(appId)])]
  }

  /** Publishes that grant device `devId`'s event stream (if `evt`) and command
      stream (if `cmd`) to application `appId`; a false flag is sent as an
      explicit deny, never omitted. */
  function AddMember(appId: string, devId: string, evt: bool, cmd: bool): (r: seq<Message>)
    ensures |r| == 1 && r[0].topic == ControlTopic && |r[0].commands| == 2
    ensures forall k | 0 <= k < 2 :: r[0].commands[k].AddRoleACL?
              && r[0].commands[k].rolename == ExclusiveRole(appId)
              && r[0].commands[k].priority == Priority
    ensures r[0].commands[0].acltype == SubscribePattern && r[0].commands[0].topic == EventTopic(devId)
    ensures r[0].commands[0].allow == evt
    ensures r[0].commands[1].acltype == PublishClientSend && r[0].commands[1].topic == CommandTopic(devId)
    ensures r[0].commands[1].allow == cmd
  {
    [Message(ControlTopic, [
      AddRoleACL(ExclusiveRole(appId), SubscribePattern, EventTopic(devId), Priority, evt),
      AddRoleACL(ExclusiveRole(appId), PublishClientSend, CommandTopic(devId), Priority, cmd)
    ])]
  }

  /** Publishes that withdraw the two ACLs a membership grant created. */
  function RemoveMember(appId: string, devId: string): (r: seq<Message>)
    ensures |r| == 1 && r[0].topic == ControlTopic && |r[0].commands| == 2
    ensures forall k | 0 <= k < 2 :: r[0].commands[k].RemoveRoleACL?
    ensures KeyOf(r[0].commands[0]) == AclKey(ExclusiveRole(appId), SubscribePattern, EventTopic(devId))
    ensures KeyOf(r[0].commands[1]) == AclKey(ExclusiveRole(appId), PublishClientSend, CommandTopic(devId))
  {
    [Message(ControlTopic, [
      RemoveRoleACL(ExclusiveRole(appId), SubscribePattern, EventTopic(devId)),
      RemoveRoleACL(ExclusiveRole(appId), PublishClientSend, CommandTopic(devId))
    ])]
  }

  /** Revoking a membership addresses exactly the ACLs that granting it
      created, in the same order, whatever the grant's allow flags were. */
  lemma RemoveMemberUndoesAddMember(appId: string, devId: string, evt: bool, cmd: bool)
    ensures var add, rem := AddMember(appId, devId, evt, cmd)[0].commands, RemoveMember(appId, devId)[0].commands;
            |add| == |rem| && forall k | 0 <= k < |add| :: KeyOf(add[k]) == KeyOf(rem[k])
  {
  }

  /** The two allow flags are independent: changing one changes only the
      entry it governs, and the grant's addressing never depends on them. */
  lemma GrantFlagsIndependent(appId: string, devId: string, evt: bool, cmd: bool, evt': bool)
    ensures AddMember(appId, devId, evt', cmd)[0].commands[1] == AddMember(appId, devId, evt, cmd)[0].commands[1]
    ensures AddMember(appId, devId, evt', cmd)[0].commands[0].allow == evt'
  {
  }

  /** A restricted application's exclusive role is created by a publish of its
      own, strictly before the publish that creates the client bound to it. */
  lemma RestrictedRoleCreatedBeforeClient(app: App)
    requires app.restricted
    ensures var r := AddDynsecApp(app);
            r[0].commands[0].CreateRole? && r[1].commands[0].CreateClient?
            && r[1].commands[0].roles[0].rolename == r[0].commands[0].rolename
  {
  }

  /** A membership grant always targets the application's exclusive role, so
      for an unrestricted application it names a role that registering the
      application never created. */
  lemma UnrestrictedGrantTargetsUncreatedRole(app: App, devId: string, evt: bool, cmd: bool)
    requires !app.restricted
    ensures var grant := AddMember(app.appId, devId, evt, cmd)[0].commands;
            forall m <- AddDynsecApp(app), c <- m.commands :: !(c.CreateRole? && c.rolename == grant[0].rolename)
  {
  }
}

=== FILE: apps_router.dfy ===
/** The application registry's write operations as guarded transitions over
    the application store, the device store and the publish trace. A
    rejected request leaves the whole state as it was; an accepted one
    publishes its commands and then updates the application store. */
module AppsRouter {
  import opened Wrappers
  import opened Naming
  import opened Commands
  import opened Trace
  import D = AppsDynsec

  type App = D.App

  /** Application store keyed by id, ids of registered devices, and the
      events these operations have published. */
  datatype State = State(apps: map<string, App>, devices: set<string>, trace: seq<Event>)

  datatype Reason = ReservedId | AppIdTaken | DeviceIdTaken | AppMissing

  /** An HTTP error response: status code and the condition behind it. */
  datatype HttpError = HttpError(status: int, reason: Reason)

  const UnprocessableEntity: int := 422
  const Conflict: int := 409
  const NotFound: int := 404

  /** State after a request together with its outcome. */
  datatype Reply<T> = Reply(state: State, outcome: Result<T, HttpError>)

  /** Registers `newApp`: rejects reserved ids (422), ids already used by an
      application or a device (409), otherwise publishes its registration
      commands and stores it. */
  function AddApp(s: State, newApp: App): (r: Reply<App>)
    ensures r.outcome == Failure(HttpError(UnprocessableEntity, ReservedId))
            <==> IsReservedAppId(newApp.appId)
    ensures r.outcome == Failure(HttpError(Conflict, AppIdTaken))
            <==> !IsReservedAppId(newApp.appId) && newApp.appId in s.apps
    ensures r.outcome == Failure(HttpError(Conflict, DeviceIdTaken))
            <==> !IsReservedAppId(newApp.appId) && newApp.appId !in s.apps && newApp.appId in s.devices
    ensures r.outcome.Success?
            <==> !IsReservedAppId(newApp.appId) && newApp.appId !in s.apps && newApp.appId !in s.devices
    ensures r.outcome.Failure? ==> r.state == s
    ensures r.outcome.Success? ==>
              && r.outcome.value == newApp
              && r.state.apps.Keys == s.apps.Keys + {newApp.appId}
              && r.state.apps[newApp.appId] == newApp
              && (forall id | id in s.apps :: r.state.apps[id] == s.apps[id])
              && r.state.devices == s.devices
              && r.state.trace == Publish(s.trace, D.AddDynsecApp(newApp))
  {
    if IsReservedAppId(newApp.appId) then
      Reply(s, Failure(HttpError(UnprocessableEntity, ReservedId)))
    else if newApp.appId in s.apps || newApp.appId in s.devices then
      if newApp.appId in s.apps then Reply(s, Failure(HttpError(Conflict, AppIdTaken)))
      else Reply(s, Failure(HttpError(Conflict, DeviceIdTaken)))
    else
      var trace := Publish(s.trace, D.AddDynsecApp(newApp));
      Reply(State(s.apps[newApp.appId := newApp], s.devices, trace), Success(newApp))
  }

  /** Looks an application up: the stored record, or 404. */
  function GetAppId(s: State, appId: string): (r: Result<App, HttpError>)
    ensures r.Success? <==> appId in s.apps
    ensures r.Success? ==> r.value == s.apps[appId]
    ensures r.Failure? ==> r.error == HttpError(NotFound, AppMissing)
  {
    if appId in s.apps then Success(s.apps[appId]) else Failure(HttpError(NotFound, AppMissing))
  }

  /** Events that delete application `appId`: its exclusive role first, when it
      is restricted, then its client. */
  function DeleteEvents(appId: string, restricted: bool): (r: seq<Event>)
    ensures |r| == if restricted then 2 else 1
    ensures restricted ==> r[0] == RoleDeleted(ExclusiveRole(appId))
    ensures r[|r| - 1] == Published(D.DeleteDynsecApp(appId)[0])
  {
    var roleEvents := if restricted then [RoleDeleted(ExclusiveRole(appId))] else [];
    Publish(roleEvents, D.DeleteDynsecApp(appId))
  }

  /** Deletes application `appId`: 404 if it is not stored, otherwise removes
      its role (when restricted) and client broker-side and drops it from the
      store. */
  function DelAppId(s: State, appId: string): (r: Reply<string>)
    ensures r.outcome.Failure? <==> appId !in s.apps
    ensures r.outcome.Failure? ==> r.outcome.error == HttpError(NotFound, AppMissing) && r.state == s
    ensures r.outcome.Success? ==>
              && r.outcome.value == appId
              && r.state.apps.Keys == s.apps.Keys - {appId}
              && (forall id | id in r.state.apps :: r.state.apps[id] == s.apps[id])
              && r.state.devices == s.devices
              && r.state.trace == s.trace + DeleteEvents(appId, s.apps[appId].restricted)
  {
    if appId !in s.apps then
      Reply(s, Failure(HttpError(NotFound, AppMissing)))
    else
      var app := s.apps[appId];
      Reply(State(s.apps - {appId}, s.devices, s.trace + DeleteEvents(appId, app.restricted)), Success(appId))
  }

  /** Grants device `devId`'s topics to application `appId`: 404 if the
      application is not stored, otherwise publishes the grant. Neither
      store changes, and the device store is not consulted. */
  function AddMember(s: State, appId: string, devId: string, evt: bool, cmd: bool): (r: Reply<string>)
    ensures r.outcome.Failure? <==> appId !in s.apps
    ensures r.outcome.Failure? ==> r.outcome.error == HttpError(NotFound, AppMissing) && r.state == s
    ensures r.outcome.Success? ==>
              && r.outcome.value == appId
              && r.state == s.(trace := Publish(s.trace, D.AddMember(appId, devId, evt, cmd)))
  {
    if appId !in s.apps then
      Reply(s, Failure(HttpError(NotFound, AppMissing)))
    else
      Reply(s.(trace := Publish(s.trace, D.AddMember(appId, devId, evt, cmd))), Success(appId))
  }

  // ---------------------------------------------------------------------
  // Invariants

  /** Every stored application is keyed by its own id, which is neither
      reserved nor a device id. */
  predicate StoreValid(s: State) {
    forall id | id in s.apps :: s.apps[id].appId == id && !IsReservedAppId(id) && id !in s.devices
  }

  /** The trace agrees with the store: exactly the stored applications have a
      client broker-side, exactly the restricted ones have their exclusive
      role, and clients were only ever bound to roles that existed. */
  ghost predicate TraceValid(s: State) {
    && (forall a :: Live(s.trace, ClientNamed(a)) <==> a in s.apps)
    && (forall a :: Live(s.trace, RoleNamed(ExclusiveRole(a))) <==> a in s.apps && s.apps[a].restricted)
    && RolesLiveWhenBound(s.trace)
  }

  ghost predicate Valid(s: State) {
    StoreValid(s) && TraceValid(s)
  }

  /** The state before any request: no applications, nothing published. */
  lemma InitialStateValid(devices: set<string>)
    ensures Valid(State(map[], devices, []))
  {
  }

  /** Events appended after a prefix keep the prefix's bound roles valid;
      the new events' bindings have to be checked against the longer trace. */
  lemma {:induction false} RolesLiveWhenBoundAppend(t: seq<Event>, u: seq<Event>)
    requires RolesLiveWhenBound(t)
    requires forall k, r | 0 <= k < |u| && r in BoundRoles(u[k]) ::
               r == SharedRole || Live((t + u)[..|t| + k], RoleNamed(r))
    ensures RolesLiveWhenBound(t + u)
  {
    var tu := t + u;
    forall i, r | 0 <= i < |tu| && r in BoundRoles(tu[i])
      ensures r == SharedRole || Live(tu[..i], RoleNamed(r))
    {
      if i < |t| {
        assert tu[..i] == t[..i];
        assert tu[i] == t[i];
      } else {
        assert tu[i] == u[i - |t|];
      }
    }
  }

  /** Registering an application gives it, and only it, a new client. */
  lemma AddAppClients(s: State, newApp: App)
    requires Valid(s) && AddApp(s, newApp).outcome.Success?
    ensures var s' := AddApp(s, newApp).state;
            forall a :: Live(s'.trace, ClientNamed(a)) <==> a in s'.apps
  {
    var s' := AddApp(s, newApp).state;
    var id, t, t' := newApp.appId, s.trace, s'.trace;
    var ms := D.AddDynsecApp(newApp);
    var u := t'[|t|..];
    assert t' == t + u;
    forall a
      ensures Live(t', ClientNamed(a)) <==> a in s'.apps
    {
      if a == id {
        assert EventEffect(t'[|t'| - 1], ClientNamed(a)) == Created by {
          SingleBatchEffect(ms[|ms| - 1].commands[0], ClientNamed(a));
        }
      } else {
        forall k | 0 <= k < |u| ensures EventEffect(u[k], ClientNamed(a)) == Untouched {
          SingleBatchEffect(ms[k].commands[0], ClientNamed(a));
        }
        LiveAppendUntouched(t, u, ClientNamed(a));
      }
    }
  }

  /** Registering an application creates its exclusive role exactly when it is
      restricted, and touches no other role. */
  lemma AddAppRoles(s: State, newApp: App)
    requires Valid(s) && AddApp(s, newApp).outcome.Success?
    ensures var s' := AddApp(s, newApp).state;
            forall a :: Live(s'.trace, RoleNamed(ExclusiveRole(a))) <==> a in s'.apps && s'.apps[a].restricted
  {
    var s' := AddApp(s, newApp).state;
    var id, t, t' := newApp.appId, s.trace, s'.trace;
    var ms := D.AddDynsecApp(newApp);
    var u := t'[|t|..];
    assert t' == t + u;
    forall a
      ensures Live(t', RoleNamed(ExclusiveRole(a))) <==> a in s'.apps && s'.apps[a].restricted
    {
      var x := RoleNamed(ExclusiveRole(a));
      ExclusiveRoleInjective(a, id);
      if a == id && newApp.restricted {
        SingleBatchEffect(ms[0].commands[0], x);
        SingleBatchEffect(ms[1].commands[0], x);
        assert EventEffect(t'[|t|], x) == Created;
        assert EventEffect(t'[|t| + 1], x) == Untouched;
        LiveIffCreatedSinceTouched(t', x);
      } else {
        forall k | 0 <= k < |u| ensures EventEffect(u[k], x) == Untouched {
          SingleBatchEffect(ms[k].commands[0], x);
        }
        LiveAppendUntouched(t, u, x);
      }
    }
  }

  /** Registering an application binds its client only to a role that exists. */
  lemma AddAppBoundRoles(s: State, newApp: App)
    requires Valid(s) && AddApp(s, newApp).outcome.Success?
    ensures RolesLiveWhenBound(AddApp(s, newApp).state.trace)
  {
    var s' := AddApp(s, newApp).state;
    var id, t, t' := newApp.appId, s.trace, s'.trace;
    var ms := D.AddDynsecApp(newApp);
    var u := t'[|t|..];
    assert t' == t + u;
    forall k, role | 0 <= k < |u| && role in BoundRoles(u[k])
      ensures role == SharedRole || Live((t + u)[..|t| + k], RoleNamed(role))
    {
      if newApp.restricted {
        assert k == 1 && role == ExclusiveRole(id);
        assert (t + u)[..|t| + k] == t + [u[0]];
        SingleBatchEffect(ms[0].commands[0], RoleNamed(role));
        assert EventEffect(u[0], RoleNamed(role)) == Created;
      }
    }
    RolesLiveWhenBoundAppend(t, u);
  }

  /** Registering an application keeps the store and the trace consistent. */
  lemma AddAppPreservesValid(s: State, newApp: App)
    requires Valid(s)
    ensures Valid(AddApp(s, newApp).state)
  {
    if AddApp(s, newApp).outcome.Success? {
      AddAppClients(s, newApp);
      AddAppRoles(s, newApp);
      AddAppBoundRoles(s, newApp);
    }
  }

  /** Deleting an application removes its client and no other. */
  lemma DelAppIdClients(s: State, appId: string)
    requires Valid(s) && DelAppId(s, appId).outcome.Success?
    ensures var s' := DelAppId(s, appId).state;
            forall a :: Live(s'.trace, ClientNamed(a)) <==> a in s'.apps
  {
    var s' := DelAppId(s, appId).state;
    var t, u := s.trace, DeleteEvents(appId, s.apps[appId].restricted);
    assert s'.trace == t + u;
    var last := D.DeleteDynsecApp(appId)[0].commands[0];
    forall a
      ensures Live(t + u, ClientNamed(a)) <==> a in s'.apps
    {
      SingleBatchEffect(last, ClientNamed(a));
      if a != appId {
        LiveAppendUntouched(t, u, ClientNamed(a));
      }
    }
  }

  /** Deleting an application removes its exclusive role when it is
      restricted, and no other application's role. */
  lemma DelAppIdRoles(s: State, appId: string)
    requires Valid(s) && DelAppId(s, appId).outcome.Success?
    ensures var s' := DelAppId(s, appId).state;
            forall a :: Live(s'.trace, RoleNamed(ExclusiveRole(a))) <==> a in s'.apps && s'.apps[a].restricted
  {
    var s' := DelAppId(s, appId).state;
    var restricted := s.apps[appId].restricted;
    var t, u := s.trace, DeleteEvents(appId, restricted);
    var t' := t + u;
    assert s'.trace == t';
    var last := D.DeleteDynsecApp(appId)[0].commands[0];
    forall a
      ensures Live(t', RoleNamed(ExclusiveRole(a))) <==> a in s'.apps && s'.apps[a].restricted
    {
      var x := RoleNamed(ExclusiveRole(a));
      ExclusiveRoleInjective(a, appId);
      SingleBatchEffect(last, x);
      if a == appId && restricted {
        assert EventEffect(t'[|t|], x) == Deleted;
        assert !Live(t', x);
      } else {
        LiveAppendUntouched(t, u, x);
      }
    }
  }

  /** Deleting an application keeps the store and the trace consistent. */
  lemma DelAppIdPreservesValid(s: State, appId: string)
    requires Valid(s)
    ensures Valid(DelAppId(s, appId).state)
  {
    if DelAppId(s, appId).outcome.Success? {
      DelAppIdClients(s, appId);
      DelAppIdRoles(s, appId);
      var u := DeleteEvents(appId, s.apps[appId].restricted);
      assert forall k | 0 <= k < |u| :: BoundRoles(u[k]) == {};
      RolesLiveWhenBoundAppend(s.trace, u);
    }
  }

  /** Granting a membership keeps the store and the trace consistent: it
      creates and deletes no client and no role. */
  lemma AddMemberPreservesValid(s: State, appId: string, devId: string, evt: bool, cmd: bool)
    requires Valid(s)
    ensures Valid(AddMember(s, appId, devId, evt, cmd).state)
  {
    var s' := AddMember(s, appId, devId, evt, cmd).state;
    if AddMember(s, appId, devId, evt, cmd).outcome.Success? {
      var t, u := s.trace, Publish([], D.AddMember(appId, devId, evt, cmd));
      assert s'.trace == t + u;
      var grant := D.AddMember(appId, devId, evt, cmd)[0].commands;
      forall x: Subject
        ensures Live(s'.trace, x) == Live(t, x)
      {
        UntouchedBatch(grant, x);
        LiveAppendUntouched(t, u, x);
      }
      assert BoundRoles(u[0]) == {};
      RolesLiveWhenBoundAppend(t, u);
    }
  }

  /** Registering an application and then deleting it restores the store and
      leaves every application client and exclusive role broker-side exactly
      as it was before. */
  lemma AddThenDeleteRestores(s: State, newApp: App)
    requires Valid(s) && AddApp(s, newApp).outcome.Success?
    ensures var s2 := DelAppId(AddApp(s, newApp).state, newApp.appId);
            && s2.outcome.Success?
            && s2.state.apps == s.apps && s2.state.devices == s.devices
            && (forall a :: Live(s2.state.trace, ClientNamed(a)) == Live(s.trace, ClientNamed(a)))
            && (forall a :: Live(s2.state.trace, RoleNamed(ExclusiveRole(a))) == Live(s.trace, RoleNamed(ExclusiveRole(a))))
  {
    var s1 := AddApp(s, newApp).state;
    AddAppPreservesValid(s, newApp);
    DelAppIdPreservesValid(s1, newApp.appId);
    assert DelAppId(s1, newApp.appId).state.apps == s.apps;
  }

  /** A registered application can be looked up until it is deleted, and is
      reported missing afterwards. */
  lemma LookupAfterAddAndDelete(s: State, newApp: App)
    requires AddApp(s, newApp).outcome.Success?
    ensures var s1 := AddApp(s, newApp).state;
            && GetAppId(s1, newApp.appId) == Success(newApp)
            && GetAppId(DelAppId(s1, newApp.appId).state, newApp.appId) == Failure(HttpError(NotFound, AppMissing))
  {
  }
}

=== FILE: commands.dfy ===
/** The administrative commands of the broker's dynamic-security plugin, as a
    closed variant with exactly the fields each command kind carries, and the
    message that publishes one batch of them. */
module Commands {
  datatype AclType = SubscribePattern | PublishClientSend

  /** One entry of a client's `roles` list. */
  datatype RoleBinding = RoleBinding(rolename: string, priority: int)

  /** One entry of a role's `acls` list. */
  datatype Acl = Acl(acltype: AclType, topic: string, priority: int, allow: bool)

  datatype Command =
    | CreateRole(rolename: string, acls: seq<Acl>)
    | CreateClient(username: string, password: string, roles: seq<RoleBinding>)
    | DeleteClient(username: string)
    | AddRoleACL(rolename: string, acltype: AclType, topic: string, priority: int, allow: bool)
    | RemoveRoleACL(rolename: string, acltype: AclType, topic: string)

  /** One publish: a batch of commands sent to a topic as a single payload. */
  datatype Message = Message(topic: string, commands: seq<Command>)

  /** The ACL an add or remove command addresses: role, kind and pattern. */
  datatype AclKey = AclKey(rolename: string, acltype: AclType, topic: string)

  function KeyOf(c: Command): AclKey
    requires c.AddRoleACL? || c.RemoveRoleACL?
  {
    AclKey(c.rolename, c.acltype, c.topic)
  }
}

=== FILE: dynsec_db.dfy ===
/** Read-only queries over the broker's persisted security document. The
    document is passed in as a value instead of being read from disk. Fields
    the queries read are optional: the code indexes some of them directly
    (a missing key raises, modelled as `Failure(KeyError(..))`) and reads
    others with a default (a missing key behaves as empty or absent). */
module DynsecDb {
  import opened Wrappers
  import opened Naming
  import opened Commands

  /** One entry of a client's `roles` list; only its `rolename` is read. */
  datatype Binding = Binding(rolename: Option<string>)

  datatype Client = Client(username: Option<string>, roles: Option<seq<Binding>>)

  /** A role record; its `acls` list is never inspected by these queries. */
  datatype Role = Role(rolename: Option<string>, acls: seq<Acl>)

  datatype Document = Document(clients: Option<seq<Client>>, roles: Option<seq<Role>>)

  /** A lookup of a key the record does not have. */
  datatype KeyError = KeyError(key: string)

  /** Python truthiness of an optional string: present and non-empty. */
  predicate Truthy(s: Option<string>) {
    s.Some? && s.value != ""
  }

  // ---------------------------------------------------------------------
  // Linear scans shared by the queries

  /** First element of `xs` whose `key` is `Some(target)`, or None. */
  function FindFirst<T>(xs: seq<T>, key: T -> Option<string>, target: string): (r: Option<T>)
    ensures r.None? <==> forall i | 0 <= i < |xs| :: key(xs[i]) != Some(target)
    ensures r.Some? ==> exists i | 0 <= i < |xs| :: xs[i] == r.value && key(xs[i]) == Some(target)
                                                  && forall j | 0 <= j < i :: key(xs[j]) != Some(target)
  {
    if |xs| == 0 then None
    else if key(xs[0]) == Some(target) then Some(xs[0])
    else
      var r := FindFirst(xs[1..], key, target);
      assert forall i | 0 <= i < |xs| - 1 :: xs[1..][i] == xs[i + 1];
      r
  }

  /** Scan that indexes every element's `rolename` until one equals `target`:
      true on a match, false after a full scan, and a key error at the first
      element, before any match, that lacks the key. */
  function ScanRolenames<T>(xs: seq<T>, name: T -> Option<string>, target: string): (r: Result<bool, KeyError>)
    ensures r == Success(true) ==>
              exists i | 0 <= i < |xs| :: name(xs[i]) == Some(target) && forall j | 0 <= j < i :: name(xs[j]).Some?
    ensures r == Success(false) ==> forall i | 0 <= i < |xs| :: name(xs[i]).Some? && name(xs[i]) != Some(target)
    ensures r.Failure? ==>
              r.error == KeyError("rolename")
              && exists i | 0 <= i < |xs| :: name(xs[i]).None? && forall j | 0 <= j < i :: name(xs[j]) != Some(target)
    ensures (forall i | 0 <= i < |xs| :: name(xs[i]).Some?)
            ==> r == Success(exists i | 0 <= i < |xs| :: name(xs[i]) == Some(target))
  {
    if |xs| == 0 then Success(false)
    else match name(xs[0])
      case None => Failure(KeyError("rolename"))
      case Some(n) =>
        if n == target then Success(true)
        else
          var r := ScanRolenames(xs[1..], name, target);
          assert forall i | 0 <= i < |xs| - 1 :: xs[1..][i] == xs[i + 1];
          r
  }

  // ---------------------------------------------------------------------
  // Queries

  function RoleName(r: Role): Option<string> { r.rolename }
  function BindingName(b: Binding): Option<string> { b.rolename }
  function Username(c: Client): Option<string> { c.username }

  /** Whether a role named `roleId` exists. The `roles` collection and each
      scanned role's `rolename` are indexed directly. */
  function DynsecRoleExists(doc: Document, roleId: string): (r: Result<bool, KeyError>)
    ensures doc.roles.None? ==> r == Failure(KeyError("roles"))
    ensures doc.roles.Some? && r.Failure? ==>
              var rs := doc.roles.value;
              && r.error == KeyError("rolename")
              && exists i | 0 <= i < |rs| :: rs[i].rolename.None? && forall j | 0 <= j < i :: rs[j].rolename != Some(roleId)
    ensures r == Success(true) ==>
              var rs := doc.roles.value;
              exists i | 0 <= i < |rs| :: rs[i].rolename == Some(roleId) && forall j | 0 <= j < i :: rs[j].rolename.Some?
    ensures r == Success(false) ==>
              var rs := doc.roles.value;
              forall i | 0 <= i < |rs| :: rs[i].rolename.Some? && rs[i].rolename != Some(roleId)
    ensures doc.roles.Some? && (forall i | 0 <= i < |doc.roles.value| :: doc.roles.value[i].rolename.Some?)
            ==> r == Success(exists i | 0 <= i < |doc.roles.value| :: doc.roles.value[i].rolename == Some(roleId))
  {
    match doc.roles
    case None => Failure(KeyError("roles"))
    case Some(roles) => ScanRolenames(roles, RoleName, roleId)
  }

  /** Whether a client holds the administrator role somewhere in its bindings. */
  predicate HoldsAdmin(c: Client) {
    c.roles.Some? && exists j | 0 <= j < |c.roles.value| :: c.roles.value[j].rolename == Some(AdminRole)
  }

  /** Clients whose `roles`, binding `rolename`s and `username` are all present. */
  predicate WellFormedClients(cs: seq<Client>) {
    forall i | 0 <= i < |cs| ::
      && cs[i].username.Some?
      && cs[i].roles.Some?
      && forall j | 0 <= j < |cs[i].roles.value| :: cs[i].roles.value[j].rolename.Some?
  }

  /** What scanning bindings `bs` for the administrator role may answer: true
      only with an `admin` binding before any unnamed one, false only when every
      binding is named and none is `admin`, and a `rolename` key error only at an
      unnamed binding with no `admin` before it. */
  predicate BindingsScanned(bs: seq<Binding>, r: Result<bool, KeyError>) {
    && (r == Success(true) ==>
          exists i | 0 <= i < |bs| ::
            bs[i].rolename == Some(AdminRole) && forall j | 0 <= j < i :: bs[j].rolename.Some?)
    && (r == Success(false) ==>
          forall i | 0 <= i < |bs| :: bs[i].rolename.Some? && bs[i].rolename != Some(AdminRole))
    && (r.Failure? ==>
          && r.error == KeyError("rolename")
          && exists i | 0 <= i < |bs| ::
               bs[i].rolename.None? && forall j | 0 <= j < i :: bs[j].rolename != Some(AdminRole))
  }

  /** The inner loop over one client's bindings: whether it holds the
      administrator role, or the key error that indexing its `roles` or a
      binding's `rolename` raises first. */
  function ClientScan(c: Client): (r: Result<bool, KeyError>)
    ensures r == Success(true) ==> HoldsAdmin(c)
    ensures r == Success(false) ==> !HoldsAdmin(c)
    ensures c.roles.None? <==> r == Failure(KeyError("roles"))
    ensures c.roles.Some? ==> BindingsScanned(c.roles.value, r)
  {
    match c.roles
    case None => Failure(KeyError("roles"))
    case Some(bindings) => ScanRolenames(bindings, BindingName, AdminRole)
  }

  /** Index of the first client whose inner scan fails or finds the
      administrator role, or the number of clients when none does. */
  function FirstStop(cs: seq<Client>): (k: nat)
    ensures k <= |cs|
    ensures forall j | 0 <= j < k :: ClientScan(cs[j]) == Success(false)
    ensures k < |cs| ==> ClientScan(cs[k]) != Success(false)
  {
    if |cs| == 0 || ClientScan(cs[0]) != Success(false) then 0
    else
      var k := FirstStop(cs[1..]);
      assert forall j | 0 <= j < |cs| - 1 :: cs[1..][j] == cs[j + 1];
      1 + k
  }

  /** Username of the first client, in document order, that holds the
      administrator role. The scan stops at the first client whose inner scan
      fails or finds the role. */
  function AdminScan(cs: seq<Client>): (r: Result<Option<string>, KeyError>)
    ensures r.Success? && r.value.Some? ==>
              exists i | 0 <= i < |cs| ::
                && ClientScan(cs[i]) == Success(true) && HoldsAdmin(cs[i]) && cs[i].username == r.value
                && forall j | 0 <= j < i :: ClientScan(cs[j]) == Success(false) && !HoldsAdmin(cs[j])
    ensures r == Success(None) <==>
              forall i | 0 <= i < |cs| :: ClientScan(cs[i]) == Success(false) && !HoldsAdmin(cs[i])
    ensures r.Failure? ==>
              exists i | 0 <= i < |cs| ::
                && (forall j | 0 <= j < i :: ClientScan(cs[j]) == Success(false))
                && (|| ClientScan(cs[i]) == Failure(r.error)
                    || (ClientScan(cs[i]) == Success(true) && cs[i].username.None? && r.error == KeyError("username")))
    ensures r.Failure? ==> r.error in {KeyError("roles"), KeyError("rolename"), KeyError("username")}
    ensures WellFormedClients(cs) ==> r.Success?
  {
    var k := FirstStop(cs);
    if k == |cs| then Success(None)
    else
      match ClientScan(cs[k])
        case Failure(e) => Failure(e)
        case Success(_) =>
          match cs[k].username
          case None => Failure(KeyError("username"))
          case Some(u) => Success(Some(u))
  }

  /** The administrator client's username, or None. The `clients` collection
      is indexed directly. */
  function GetDynsecAdmin(doc: Document): (r: Result<Option<string>, KeyError>)
    ensures doc.clients.None? ==> r == Failure(KeyError("clients"))
    ensures r.Success? && r.value.Some? ==>
              exists i | 0 <= i < |doc.clients.value| ::
                HoldsAdmin(doc.clients.value[i]) && doc.clients.value[i].username == r.value
                && forall j | 0 <= j < i :: !HoldsAdmin(doc.clients.value[j])
    ensures r == Success(None) ==> forall i | 0 <= i < |doc.clients.value| :: !HoldsAdmin(doc.clients.value[i])
    ensures doc.clients.Some? ==>
              var cs := doc.clients.value;
              && (r.Success? && r.value.Some? ==>
                    exists i | 0 <= i < |cs| :: ClientScan(cs[i]) == Success(true) && cs[i].username == r.value
                                                && forall j | 0 <= j < i :: ClientScan(cs[j]) == Success(false))
              && (r == Success(None) <==> forall i | 0 <= i < |cs| :: ClientScan(cs[i]) == Success(false))
              && (r.Failure? ==>
                    exists i | 0 <= i < |cs| ::
                      && (forall j | 0 <= j < i :: ClientScan(cs[j]) == Success(false))
                      && (|| ClientScan(cs[i]) == Failure(r.error)
                          || (ClientScan(cs[i]) == Success(true) && cs[i].username.None? && r.error == KeyError("username"))))
    ensures doc.clients.Some? && WellFormedClients(doc.clients.value) ==> r.Success?
  {
    match doc.clients
    case None => Failure(KeyError("clients"))
    case Some(clients) => AdminScan(clients)
  }

  /** First client with username `clientId`; a missing `clients` collection
      behaves as empty. */
  function GetClient(doc: Document, clientId: string): (r: Option<Client>)
    ensures r.Some? ==> r.value.username == Some(clientId) && r.value in doc.clients.GetOr([])
    ensures r.Some? ==> var cs := doc.clients.GetOr([]);
              exists i | 0 <= i < |cs| :: cs[i] == r.value && forall j | 0 <= j < i :: cs[j].username != Some(clientId)
    ensures r.None? <==> forall c <- doc.clients.GetOr([]) :: c.username != Some(clientId)
  {
    FindFirst(doc.clients.GetOr([]), Username, clientId)
  }

  /** First role named `roleId`; a missing `roles` collection behaves as empty. */
  function GetRole(doc: Document, roleId: string): (r: Option<Role>)
    ensures r.Some? ==> r.value.rolename == Some(roleId) && r.value in doc.roles.GetOr([])
    ensures r.Some? ==> var rs := doc.roles.GetOr([]);
              exists i | 0 <= i < |rs| :: rs[i] == r.value && forall j | 0 <= j < i :: rs[j].rolename != Some(roleId)
    ensures r.None? <==> forall x <- doc.roles.GetOr([]) :: x.rolename != Some(roleId)
  {
    FindFirst(doc.roles.GetOr([]), RoleName, roleId)
  }

  /** The `rolename` of the first binding of a client, if it has one. */
  function PrimaryRole(c: Client): Option<string> {
    var bindings := c.roles.GetOr([]);
    if |bindings| == 0 then None else bindings[0].rolename
  }

  /** The role name of client `clientId`'s first binding. None when the client
      is absent, has no bindings, or that binding lacks a `rolename`; an empty
      `rolename` is returned as it is. */
  function GetClientRoleId(doc: Document, clientId: string): (r: Option<string>)
    ensures r.Some? ==>
              var cs := doc.clients.GetOr([]);
              exists i | 0 <= i < |cs| ::
                && cs[i].username == Some(clientId)
                && (forall j | 0 <= j < i :: cs[j].username != Some(clientId))
                && cs[i].roles.Some? && |cs[i].roles.value| > 0 && cs[i].roles.value[0].rolename == r
    ensures GetClient(doc, clientId).None? ==> r.None?
    ensures GetClient(doc, clientId).Some? && r.None? ==>
              var c := GetClient(doc, clientId).value;
              c.roles.GetOr([]) == [] || c.roles.value[0].rolename.None?
  {
    match GetClient(doc, clientId)
    case None => None
    case Some(c) => PrimaryRole(c)
  }

  /** The role record bound first to client `clientId`, when that role name is
      non-empty and a role of that name exists. */
  function GetClientRole(doc: Document, clientId: string): (r: Option<Role>)
    ensures r.Some? ==>
              Truthy(GetClientRoleId(doc, clientId)) && r.value.rolename == GetClientRoleId(doc, clientId)
    ensures r.Some? ==>
              var rs := doc.roles.GetOr([]);
              exists i | 0 <= i < |rs| ::
                rs[i] == r.value && forall j | 0 <= j < i :: rs[j].rolename != r.value.rolename
    ensures r.None? <==>
              || !Truthy(GetClientRoleId(doc, clientId))
              || forall x <- doc.roles.GetOr([]) :: x.rolename != GetClientRoleId(doc, clientId)
  {
    var roleId := GetClientRoleId(doc, clientId);
    if Truthy(roleId) then GetRole(doc, roleId.value) else None
  }

  /** The client `devId` if it is a device: its first role is named after it. */
  function GetDevice(doc: Document, devId: string): (r: Option<Client>)
    ensures r.Some? <==> devId != "" && GetClientRoleId(doc, devId) == Some(devId)
    ensures r.Some? ==> r == GetClient(doc, devId) && r.value.username == Some(devId)
  {
    var role := GetClientRoleId(doc, devId);
    if Truthy(role) && role.value == devId then GetClient(doc, devId) else None
  }

  /** The client `appId` if it is an application: its first role name starts
      with the shared application role's name. */
  function GetAppId(doc: Document, appId: string): (r: Option<Client>)
    ensures r.Some? <==> GetClientRoleId(doc, appId).Some? && StartsWith(GetClientRoleId(doc, appId).value, SharedRole)
    ensures r.Some? ==> r == GetClient(doc, appId) && r.value.username == Some(appId)
  {
    var role := GetClientRoleId(doc, appId);
    if Truthy(role) && StartsWith(role.value, SharedRole) then GetClient(doc, appId) else None
  }

  /** An id is classified both as a device and as an application only when
      its first role is itself and starts with the shared role's name. */
  lemma DeviceAndAppOverlap(doc: Document, id: string)
    ensures GetDevice(doc, id).Some? && GetAppId(doc, id).Some?
            <==> GetClientRoleId(doc, id) == Some(id) && StartsWith(id, SharedRole)
  {
  }

  /** Hence an id that does not start with the shared role's name is never
      both a device and an application. */
  lemma DeviceAndAppExclusive(doc: Document, id: string)
    requires !StartsWith(id, SharedRole)
    ensures !(GetDevice(doc, id).Some? && GetAppId(doc, id).Some?)
  {
    DeviceAndAppOverlap(doc, id);
  }

  /** A client whose first binding is the role registration gives an
      accepted application id is classified as an application and never as
      a device. */
  lemma RegisteredAppClassifiesAsApp(doc: Document, appId: string, restricted: bool)
    requires !IsReservedAppId(appId)
    requires GetClientRoleId(doc, appId) == Some(RoleForApp(appId, restricted))
    ensures GetAppId(doc, appId).Some?
    ensures GetDevice(doc, appId).None?
  {
    RoleNamesAreReserved(appId, restricted);
  }
}

=== FILE: naming.dfy ===
/** Role and topic naming policy of the dynamic-security layer: the shared
    application role, the exclusive per-application role, and the two topic
    patterns that make up a device membership grant. */
module Naming {

  /** Role every unrestricted application client is bound to. */
  const SharedRole: string := "$apps"

  /** Prefix of an exclusive application role; the application id follows it. */
  const ExclusiveRolePrefix: string := "$apps_"

  /** Role name that marks the broker administrator client. */
  const AdminRole: string := "admin"

  /** Application ids may not start with this character. */
  const ReservedPrefix: string := "$"

  /** Application id reserved for the administrator. */
  const ReservedAppId: string := "admin"

  /** Topic every administrative command batch is published to. */
  const ControlTopic: string := "$CONTROL/dynamic-security/v1"

  predicate StartsWith(s: string, prefix: string) {
    |prefix| <= |s| && s[..|prefix|] == prefix
  }

  /** Exclusive role of application `appId`. */
  function ExclusiveRole(appId: string): (r: string)
    ensures StartsWith(r, ExclusiveRolePrefix)
    ensures r[|ExclusiveRolePrefix|..] == appId
  {
    ExclusiveRolePrefix + appId
  }

  /** Role an application's client is bound to. */
  function RoleForApp(appId: string, restricted: bool): (r: string)
    ensures StartsWith(r, SharedRole)
    ensures restricted <==> r != SharedRole
    ensures restricted ==> StartsWith(r, ExclusiveRolePrefix) && r[|ExclusiveRolePrefix|..] == appId
  {
    if restricted then ExclusiveRole(appId) else SharedRole
  }

  /** The identifier an ACL helper object reports for a role. The helper is
      not part of this model; it is assumed to report the role name itself. */
  function AclId(rolename: string): (r: string)
    ensures r == rolename
  {
    rolename
  }

  /** Pattern covering a device's event stream. */
  function EventTopic(devId: string): (r: string)
    ensures |r| == |devId| + 11 && StartsWith(r, "iot3/") && r[5..|r| - 6] == devId
    ensures r[|r| - 6..] == "/evt/#"
  {
    "iot3/" + devId + "/evt/#"
  }

  /** Pattern covering a device's command stream. */
  function CommandTopic(devId: string): (r: string)
    ensures |r| == |devId| + 11 && StartsWith(r, "iot3/") && r[5..|r| - 6] == devId
    ensures r[|r| - 6..] == "/cmd/#"
  {
    "iot3/" + devId + "/cmd/#"
  }

  /** Ids an application may not be registered under. */
  function IsReservedAppId(appId: string): (r: bool)
    ensures r <==> (|appId| > 0 && appId[0] == '$') || appId == "admin"
  {
    StartsWith(appId, ReservedPrefix) || appId == ReservedAppId
  }

  /** Two applications never share an exclusive role. */
  lemma ExclusiveRoleInjective(a: string, b: string)
    ensures ExclusiveRole(a) == ExclusiveRole(b) <==> a == b
  {
    if ExclusiveRole(a) == ExclusiveRole(b) {
      assert a == ExclusiveRole(a)[|ExclusiveRolePrefix|..];
    }
  }

  /** An exclusive role is never the shared role, yet it carries the shared
      role's name as its prefix. */
  lemma ExclusiveRoleIsNotShared(appId: string)
    ensures ExclusiveRole(appId) != SharedRole
    ensures StartsWith(ExclusiveRole(appId), SharedRole)
  {
    assert |ExclusiveRole(appId)| > |SharedRole|;
  }

  /** Distinct devices get distinct patterns, and an event pattern never
      equals a command pattern. */
  lemma TopicsDistinct(d1: string, d2: string)
    ensures EventTopic(d1) == EventTopic(d2) <==> d1 == d2
    ensures CommandTopic(d1) == CommandTopic(d2) <==> d1 == d2
    ensures EventTopic(d1) != CommandTopic(d2)
  {
    var e1, e2 := EventTopic(d1), EventTopic(d2);
    var c1, c2 := CommandTopic(d1), CommandTopic(d2);
    if e1 == e2 {
      assert d1 == e1[5..|e1| - 6];
    }
    if c1 == c2 {
      assert d1 == c1[5..|c1| - 6];
    }
    assert e1[|e1| - 6..][1] != c2[|c2| - 6..][1];
  }

  /** Every application role name starts with the reserved prefix, so no
      accepted application id is ever a role name. */
  lemma RoleNamesAreReserved(appId: string, restricted: bool)
    ensures IsReservedAppId(RoleForApp(appId, restricted))
  {
    assert RoleForApp(appId, restricted)[0] == '$';
  }
}

=== FILE: trace.dfy ===
/** The record of everything published to the broker, in order, and what it
    implies about which clients and roles exist broker-side. A publish appends
    one message; removing a role is a separate, opaque event whose payload is
    not part of this model. */
module Trace {
  import opened Naming
  import opened Commands

  datatype Event = Published(message: Message) | RoleDeleted(rolename: string)

  /** Appends one publish event per message, in order. */
  function Publish(t: seq<Event>, ms: seq<Message>): (r: seq<Event>)
    ensures |r| == |t| + |ms| && r[..|t|] == t
    ensures forall i | 0 <= i < |ms| :: r[|t| + i] == Published(ms[i])
  {
    t + seq(|ms|, i requires 0 <= i < |ms| => Published(ms[i]))
  }

  /** A broker-side name a command can create or delete. */
  datatype Subject = ClientNamed(username: string) | RoleNamed(rolename: string)

  datatype Effect = Created | Deleted | Untouched

  function CommandEffect(c: Command, x: Subject): Effect {
    match x
    case ClientNamed(u) =>
      if c.CreateClient? && c.username == u then Created
      else if c.DeleteClient? && c.username == u then Deleted
      else Untouched
    case RoleNamed(n) =>
      if c.CreateRole? && c.rolename == n then Created else Untouched
  }

  /** Effect of a batch on `x`: that of the last command touching it. */
  function BatchEffect(cs: seq<Command>, x: Subject): Effect {
    if |cs| == 0 then Untouched
    else
      var e := CommandEffect(cs[|cs| - 1], x);
      if e != Untouched then e else BatchEffect(cs[..|cs| - 1], x)
  }

  /** A one-command batch has that command's effect. */
  lemma SingleBatchEffect(c: Command, x: Subject)
    ensures BatchEffect([c], x) == CommandEffect(c, x)
  {
    assert [c][..0] == [];
  }

  /** A batch none of whose commands touches `x` leaves it untouched. */
  lemma {:induction false} UntouchedBatch(cs: seq<Command>, x: Subject)
    requires forall j | 0 <= j < |cs| :: CommandEffect(cs[j], x) == Untouched
    ensures BatchEffect(cs, x) == Untouched
  {
    if |cs| > 0 {
      var init := cs[..|cs| - 1];
      assert forall j | 0 <= j < |init| :: init[j] == cs[j];
      UntouchedBatch(init, x);
    }
  }

  function EventEffect(e: Event, x: Subject): Effect {
    match e
    case Published(m) => BatchEffect(m.commands, x)
    case RoleDeleted(n) => if x == RoleNamed(n) then Deleted else Untouched
  }

  /** Whether `x` exists after trace `t`: the last event touching it created it. */
  function Live(t: seq<Event>, x: Subject): bool {
    if |t| == 0 then false
    else match EventEffect(t[|t| - 1], x)
      case Created => true
      case Deleted => false
      case Untouched => Live(t[..|t| - 1], x)
  }

  /** `Live` read forwards: some event created `x` and no later event touched it. */
  lemma {:induction false} LiveIffCreatedSinceTouched(t: seq<Event>, x: Subject)
    ensures Live(t, x) <==> exists i | 0 <= i < |t| ::
              EventEffect(t[i], x) == Created && forall j | i < j < |t| :: EventEffect(t[j], x) == Untouched
  {
    if |t| > 0 {
      var init := t[..|t| - 1];
      assert forall j | 0 <= j < |init| :: init[j] == t[j];
      LiveIffCreatedSinceTouched(init, x);
    }
  }

  /** Appending events that leave `x` untouched does not change whether it exists. */
  lemma {:induction false} LiveAppendUntouched(t: seq<Event>, u: seq<Event>, x: Subject)
    requires forall k | 0 <= k < |u| :: EventEffect(u[k], x) == Untouched
    ensures Live(t + u, x) == Live(t, x)
  {
    if |u| == 0 {
      assert t + u == t;
    } else {
      var u0 := u[..|u| - 1];
      assert (t + u)[..|t + u| - 1] == t + u0;
      assert (t + u)[|t + u| - 1] == u[|u| - 1];
      LiveAppendUntouched(t, u0, x);
    }
  }

  /** Roles a publish binds a client to. */
  function BoundRoles(e: Event): set<string> {
    match e
    case RoleDeleted(_) => {}
    case Published(m) =>
      set j, k | 0 <= j < |m.commands| && m.commands[j].CreateClient? && 0 <= k < |m.commands[j].roles|
        :: m.commands[j].roles[k].rolename
  }

  /** Every role a client is bound to is the shared role or exists, by an
      earlier publish, at the moment the client is created. */
  predicate RolesLiveWhenBound(t: seq<Event>) {
    forall i, r | 0 <= i < |t| && r in BoundRoles(t[i]) :: r == SharedRole || Live(t[..i], RoleNamed(r))
  }
}

=== FILE: wrappers.dfy ===
/** Wrappers used across the model: `Option` stands for
    Python's `None`-or-value returns, `Result` for a value or a raised error. */
module Wrappers {

  datatype Option<+T> = None | Some(value: T) {

    /** Returns the wrapped value, or `default` for None (a dictionary read with a default). */
    function GetOr(default: T): T {
      match this
      case Some(v) => v
      case None => default
    }
  }

  datatype Result<+R, +E> = Success(value: R) | Failure(error: E)
}
